=== FILE: README.md ===
# simpletq queue core, in Dafny

`stq.py` is a task queue kept entirely in a directory tree. A queue root holds
`QUEUE`, `RUNNING`, `FAILED`, `FINISHED` and `PIDS`, and a task's state is the
directory it is in. `stq.py DIR -a CMD` writes a small bash script into `QUEUE`
under a name derived from the command. `stq.py DIR` runs a worker that loops:

1. pick the oldest script in `QUEUE`;
2. claim it by `mkdir RUNNING/<host>-<pid>-<name>` and renaming the script
   into that folder;
3. run it;
4. rename the folder into `FINISHED` (exit status 0) or `FAILED`, adding a
   `_N` suffix when the name is taken.

The model has six modules:

- `Decimal`: how `'{}'.format(n)` prints a number, and that reading the
  digits back gives the number.
- `Naming`: the pure string rules. These are name derivation, the `name`,
  `name_1`, … probe sequence and the script text.
- `Selection`: Python's `min` over `(mtime, name)` pairs, with Python's string
  ordering.
- `FileTree`: the queue root as a value (`Tree`), and each filesystem primitive
  stq.py uses as one atomic step on it. It also holds the steps of other
  processes (`Rival`). A ghost map from task id to location (`Tracks`) states
  that each task is in exactly one place.
- `TaskStore`: the class `QueueRoot`, which holds the tree and changes it in
  place. Its methods are layout creation, submission, listing, claim and
  finalize. Each keeps `Valid()`: the tree is well formed, and every task is
  tracked in exactly one state directory.
- `WorkerLoop`: the class `Worker` with its `waiting` flag, and one pass of
  the main loop (`Iterate`).

The model follows what the code does:

- The derived name of `echo hi` is `echo-hi`. Space and `;` map to `-`;
  only `/`, `"` and `'` map to `_`.
- `lstrip('./')` drops any leading run of `.` and `/`, so `../x` becomes `x`.
- Submission probes with `os.path.exists` and then makes one exclusive create.
  If another process took the name in between, the create raises; it is not
  retried.

- The RUNNING folder name `<host>-<pid>-<name>` does not tell apart hosts
  whose names contain `-` (`FileTree.WorkDirNameCollides`). Two workers can
  then need the same folder; the second one's `os.mkdir` raises outside the
  `try`, and that worker ends (`MkdirFailed`).

Python truthiness is kept: an empty `--task-name` or `--working-dir` counts as
absent. `os.path.join(d, n)` with `n` equal to `""`, `.` or `..` names `d` itself
or its parent, which exist whenever `d` does. The model counts these names
as present (`Special`) without asking whether `d` exists. This changes nothing
observable: where `d` is missing, the create or rename fails with the tree
unchanged either way, and only the name carried by `CreateFailed` differs.

## Model

| member | source | states |
|---|---|---|
| Decimal.Show | stq.py:75 | the decimal text of a number is non-empty, all digits, and has no leading zero |
| Decimal.ValueShow | stq.py:75 | reading the printed digits back gives the number (round trip) |
| Decimal.ShowInjective | stq.py:75 | distinct numbers print differently |
| Naming.Suffixed | stq.py:69-75 | attempt 0 is the name itself; attempt k > 0 is the name, then `_`, then a decimal text that reads back as k |
| Naming.SuffixedInjective | stq.py:71-75 | two different attempts never give the same name |
| Naming.ProbeBound | stq.py:71-75 | if the first k attempts are all in a finite set of taken names, k is at most its size, so the probe stops |
| Naming.LStrip | stq.py:68 | `lstrip('./')` gives a suffix of the input; everything dropped is `.` or `/`; the result does not start with either |
| Naming.Replace | stq.py:68 | the translation table maps `/`, `"` and `'` to `_`, space and `;` to `-`, keeps every other character, and (backslash aside) yields no unsafe character |
| Naming.Translate | stq.py:68 | translation never lengthens the text and leaves no `/ " ' ;`, space or backslash |
| Naming.TranslateAppend | stq.py:68 | translation works piecewise: translating a concatenation concatenates the translations |
| Naming.TranslateAt | stq.py:68 | without backslashes, every position is kept and mapped by the table |
| Naming.TranslateSafe | stq.py:68 | text with no unsafe character is left unchanged |
| Naming.TranslateIdempotent | stq.py:68 | translating twice is translating once |
| Naming.DeriveTaskName | stq.py:68 | a derived task name is no longer than the command and holds no unsafe character |
| Naming.DeriveTaskNameSplits | stq.py:68 | the derived name is the translation of the command after its leading `./` run |
| Naming.DeriveEchoHi | stq.py:68 | `echo hi` derives `echo-hi` |
| Naming.DeriveDotDotSlash | stq.py:68 | `../x` derives `x` |
| Naming.DeriveBackslashDots | stq.py:68 | `\..` derives `..`, because the backslash shields the dots from `lstrip` |
| Naming.TaskName | stq.py:64-68 | a non-empty `--task-name` is used verbatim; otherwise the name is derived from the command |
| Naming.CdLine | stq.py:80-81 | the `cd` line is present exactly when a non-empty working directory is given |
| Naming.ScriptContent | stq.py:79-82 | the script is the shebang, then the optional `cd` line, then the command verbatim, with no newline added |
| Naming.ScriptExample | stq.py:79-82 | concrete scripts without a directory, with a directory and with an empty directory |
| Selection.StrLeReflexive | stq.py:112 | Python string ordering is reflexive |
| Selection.StrLeTotal | stq.py:112 | Python string ordering is total |
| Selection.StrLeTransitive | stq.py:112 | Python string ordering is transitive |
| Selection.StrLeAntisymmetric | stq.py:112 | Python string ordering is antisymmetric |
| Selection.KeyLeTotal | stq.py:112 | the `(mtime, name)` tuple ordering is total |
| Selection.KeyLeTransitive | stq.py:112 | the tuple ordering is transitive |
| Selection.KeyLeAntisymmetric | stq.py:112 | the tuple ordering is antisymmetric |
| Selection.MinFrom | stq.py:112 | Python `min` returns one of its items, and that item is `<=` every item |
| Selection.Oldest | stq.py:112 | on a non-empty listing, the chosen name belongs to an entry whose `(mtime, name)` is `<=` every entry's: oldest first, ties to the smallest name |
| Selection.OldestIsUnique | stq.py:112 | the entry `<=` all others is the one chosen, whatever the order of the listing |
| Selection.SelectionExample | stq.py:112 | among `(5,b)`, `(3,z)`, `(3,a)` the choice is `a` |
| FileTree.Taken | stq.py:72 | the names that `os.path.exists` reports for a directory form a finite set |
| FileTree.MakeDir | stq.py:56-60 | `os.mkdir` of a layout directory adds exactly that directory and changes no file |
| FileTree.MakeDirKeeps | stq.py:56-60 | making a layout directory (root first) keeps the tree well formed and moves no task |
| FileTree.CanCreate | stq.py:77 | the exclusive create succeeds exactly when QUEUE exists and the name is not present in it |
| FileTree.Create | stq.py:77 | an exclusive create adds exactly the new QUEUE entry and changes nothing else |
| FileTree.CanMkdir | stq.py:116 | the claim's mkdir succeeds exactly when RUNNING exists and the folder name is not present in it |
| FileTree.Mkdir | stq.py:116 | the mkdir adds one empty RUNNING folder and changes nothing else |
| FileTree.CanMoveScript | stq.py:118-119 | the claim's rename succeeds exactly when the script is a queued task and the folder exists in RUNNING |
| FileTree.MoveScript | stq.py:118-119 | the rename takes the script out of QUEUE and puts it, same name and content, into the folder; nothing else changes |
| FileTree.CanRmdir | stq.py:123 | the rmdir succeeds exactly when the folder exists and no task is filed in it |
| FileTree.Rmdir | stq.py:123 | the rmdir removes exactly that RUNNING folder |
| FileTree.RmdirUndoesMkdir | stq.py:116-123 | removing the folder just made restores the tree |
| FileTree.CanMoveFolder | stq.py:142 | the finalize rename succeeds exactly when the work folder and the stage directory exist, the name is not `""`, `.` or `..`, and no task is filed under that name (absent, or an empty directory that POSIX rename replaces) |
| FileTree.MoveFolder | stq.py:142 | the rename removes the work folder from RUNNING and puts its contents under the new name in the stage; the other stage, the other folders, QUEUE and the layout are unchanged |
| FileTree.MoveFolderWellFormed | stq.py:142 | renaming a non-empty work folder into FINISHED or FAILED keeps the tree well formed |
| FileTree.MoveFolderNeverReplaces | stq.py:142 | in a well-formed tree, a rename into FINISHED or FAILED never replaces an existing entry |
| FileTree.WorkDirName | stq.py:115 | the RUNNING folder name ends with the script name and is never `""`, `.` or `..` |
| FileTree.WorkDirNameCollides | stq.py:115 | two different (host, pid, script) triples can give the same RUNNING folder name |
| FileTree.RivalStep | stq.py:115-120 | one step of another submitter or worker keeps the layout, FINISHED and FAILED |
| FileTree.AfterRivals | stq.py:115-120 | a sequence of other processes' steps keeps the layout, FINISHED and FAILED |
| FileTree.RivalsKeep | stq.py:120 | other processes' steps keep the layout, FINISHED, FAILED and every existing RUNNING folder |
| FileTree.RivalsWellFormed | stq.py:120 | other processes' steps keep the tree well formed |
| FileTree.RivalClaimTakesScript | stq.py:118-120 | once another worker has claimed a script, it has left QUEUE and sits alone in that worker's folder |
| FileTree.CreateTracks | stq.py:77 | a create adds one new task, in QUEUE; every other task keeps its one place |
| FileTree.MkdirTracks | stq.py:116 | a new empty folder moves no task |
| FileTree.RmdirTracks | stq.py:123 | removing an empty folder moves no task |
| FileTree.MoveScriptTracks | stq.py:118-119 | a claim moves exactly one task, from QUEUE into the worker's folder |
| FileTree.MoveFolderAt | stq.py:142 | after a folder rename, the folder's files are under the new name and everything else is where it was |
| FileTree.MoveFolderTracks | stq.py:142 | a folder rename moves the folder's tasks and no other; each task stays in exactly one place |
| FileTree.RivalStepWellFormed | stq.py:120 | one step of another process keeps the tree well formed |
| FileTree.MoveScriptAt | stq.py:118-119 | after the claim's rename, the occupied places are the new one in the folder plus every old one except the QUEUE file |
| FileTree.MoveFolderSeparates | stq.py:142 | after a folder rename, two tasks are still in two places |
| FileTree.MoveFolderCovers | stq.py:142 | every file present after a folder rename belongs to a task that existed before it |
| FileTree.RivalsMovedKeeps | stq.py:120 | other processes' steps never make a known task untracked |
| FileTree.RivalStepTracks | stq.py:120 | another process's step keeps every task in exactly one place |
| TaskStore.StageFor | stq.py:132-140 | a task is filed under FINISHED exactly when its exit status is 0, and never back under RUNNING |
| TaskStore.WithLayout | stq.py:56-60 | after layout creation, the root and all five subdirectories exist; no file and no other directory changes |
| TaskStore.LayoutKeepsWellFormed | stq.py:56-60 | creating the layout keeps a well-formed tree well formed |
| TaskStore.LayoutIdempotent | stq.py:56-60 | creating the layout twice gives the same tree as creating it once |
| TaskStore.QueueRoot.EnsureLayout | stq.py:56-60 | the loop over the layout directories leaves exactly `WithLayout` of the old tree |
| TaskStore.QueueRoot.ProbeQueueName | stq.py:69-75 | the probe returns the first of `name`, `name_1`, … not present in QUEUE; every earlier attempt is present |
| TaskStore.QueueRoot.RivalAct | stq.py:115-120 | one step of another process changes the tree by exactly `RivalStep`, gives a new script the next task id, and keeps every task tracked |
| TaskStore.QueueRoot.Interference | stq.py:115-120 | other processes' steps, in order, leave exactly `AfterRivals` of the tree and relocate tasks by `RivalsMoved` |
| TaskStore.QueueRoot.CreateFile | stq.py:77 | the exclusive create adds exactly one task, in QUEUE, under a new id |
| TaskStore.QueueRoot.MakeWorkDir | stq.py:116 | the claim's mkdir changes the tree by exactly `Mkdir` and moves no task |
| TaskStore.QueueRoot.TakeScript | stq.py:118-119 | the claim's rename changes the tree by exactly `MoveScript` and relocates exactly that task into the folder |
| TaskStore.QueueRoot.RemoveWorkDir | stq.py:123 | the rmdir after a lost race changes the tree by exactly `Rmdir` and moves no task |
| TaskStore.QueueRoot.FileFolder | stq.py:142 | the finalize rename changes the tree by exactly `MoveFolder` and relocates the folder's tasks, and only those |
| TaskStore.QueueRoot.ListQueue | stq.py:102 | the listing fails exactly when QUEUE is missing; otherwise it holds each QUEUE entry exactly once |
| TaskStore.QueueRoot.Submit | stq.py:63-83 | the name is the first free probe of the task name. Other processes may act before the create. The create then adds the script text under that name, or fails with the tree as they left it; nothing is retried or overwritten. Every known task stays tracked: the others where the rival steps put them, the new one in QUEUE |
| TaskStore.QueueRoot.Claim | stq.py:115-124 | a failed mkdir ends the worker with the tree unchanged. Otherwise the claim succeeds iff the script is still queued after other processes act. On success the script alone moves into the new folder, after the rival steps' relocations; on a lost race that folder is removed and only the rivals have moved tasks |
| TaskStore.QueueRoot.Finalize | stq.py:137-148 | the folder goes to FINISHED iff the exit status is 0, else to FAILED, under the first of `script`, `script_1`, … not present there. It fails, with the tree unchanged, exactly when the folder or the stage directory is missing. On success the folder's tasks, and only they, move to the new place |
| WorkerLoop.Worker.constructor | stq.py:98 | a worker starts with the waiting flag clear |
| WorkerLoop.Worker.Iterate | stq.py:99-148 | one pass: a missing QUEUE ends the worker with the tree and the flag unchanged; otherwise idle iff QUEUE is empty; the notice is printed iff the flag was clear, and the flag is then set; otherwise the flag is cleared and the oldest script goes through the claim: a failed mkdir ends the pass with the tree unchanged, a lost race leaves the rival steps' tree minus the folder, and a won claim is filed by exit status under the first free probe name, the tree being exactly the claim's rename followed by the folder rename, or ends the pass when the stage directory is missing; no known task is forgotten |
| WorkerLoop.Notices | stq.py:98-109 | a run of polls prints one notice flag per poll |
| WorkerLoop.NoticeAtSpellStart | stq.py:103-109 | a notice is printed exactly at an empty poll whose predecessor was non-empty (or, for the first poll, when the flag started clear) |
| WorkerLoop.NoticesSeparated | stq.py:103-109 | between two notices QUEUE was seen non-empty at least once |

## Left out

- Argument parsing (stq.py:39-44) is left out. The arguments are parameters: the command, an optional task name and an optional working directory.
- Running the script is left out: `subprocess`, `stdbuf`, `tee`, `pipefail` and `out.txt` (stq.py:127-134). The exit status is a parameter, and `out.txt` does not appear in the work folder.
- The `chmod` of the script (stq.py:130) is left out; the model has no permission bits.
- The PID file, the `atexit` cleanup and the SIGTERM handler (stq.py:52, 88-94) are left out. `PIDS` exists only as a layout directory.
- `time.sleep` and `print` are left out. The notice is a boolean in `Outcome.Idle`.
- The host name and the process id are parameters.
- File modification times are integers, not floats. `now` is a parameter of `Submit`.
- An explicit `--task-name` is one literal QUEUE entry name in the model. In stq.py, the probe and the create (stq.py:69-77) resolve `os.path.join(QUEUE, name)` as a path. A leading `/` creates the file at that absolute path, outside the root. `./y` creates `QUEUE/y`. `../x` creates `x` in the queue root. `../FINISHED/x` puts a plain file into FINISHED, which `Tree` cannot hold. A name whose directory part is missing or is not a directory makes the create fail. The model instead creates the entry under the literal name (`./y`, `../x`, and so on). Derived names never contain `/`.
- True concurrency and network-filesystem renames are left out. Other processes act only as whole atomic steps (`Rival`): submitters and claimers, between this process's probe and create, and between its mkdir and rename. Rival finalize steps, and interference at other points, are not modelled. Two such races in stq.py are therefore absent. A rival that claims a listed script between the listing (stq.py:102) and `getmtime` (stq.py:112) makes `getmtime` raise and ends the worker. A script is written only after its exclusive create (stq.py:77-83), so a worker can claim and run an empty or partial script; the model's `Create` and `RivalSubmit` write the content in the same step.
- The only I/O failure modelled for a create or a mkdir is that the name exists or the parent directory is missing. Permission errors, full disks and over-long names are left out. `CanCreate` and `CanMkdir` have no length limit. In stq.py, a derived name longer than NAME_MAX makes `os.path.exists` (stq.py:72) report it absent and the create (stq.py:77) raise, so such a command is queued only with `--task-name`. A name short enough to queue, but too long once `<host>-<pid>-` is prepended, makes the mkdir (stq.py:116) raise outside the `try`: every worker that picks it ends, and it stays the oldest script in QUEUE.
- TaskStore.QueueRoot.Finalize: requires the work folder, if present, to be non-empty. In the model, the folder holds the claimed script after `Claim` and running the task changes nothing in it. A task that deletes its own files, or another process that empties the folder, is not modelled.
- FileTree.MoveFolderNeverReplaces: holds only while every FINISHED and FAILED folder is non-empty, which `FileTree.WellFormed` assumes. stq.py does not guarantee this: the task runs inside its folder (stq.py:132-134) and may delete its own files. A later rename onto that emptied folder (stq.py:142) replaces it, as POSIX rename does.
- WorkerLoop.Worker.Iterate: covers one pass of the endless loop. The unbounded repetition is described by `WorkerLoop.Notices` over a sequence of polls.
- The layout creation also runs before a submission (stq.py:56-60). Here `EnsureLayout` and `Submit` are separate methods that callers run in that order.
- The dispatch at stq.py:63 is not modelled. An empty `--add-task` is falsy and starts a worker; here that choice is the caller's.

=== FILE: decimal.dfy ===
/** Decimal rendering of natural numbers, as Python's `'{}'.format(n)` prints
    them.  Used for the `_N` suffixes of probed names and for the process id in
    a worker's RUNNING directory name. */
module Decimal {

  predicate IsDigit(c: char) {
    '0' <= c <= '9'
  }

  function DigitChar(d: nat): (c: char)
    requires d < 10
    ensures IsDigit(c) && c as int - '0' as int == d
  {
    ('0' as int + d) as char
  }

  /** The decimal digits of `n`, most significant first, without leading zeros. */
  function Show(n: nat): (s: string)
    ensures |s| >= 1
    ensures forall i | 0 <= i < |s| :: IsDigit(s[i])
    ensures s[0] == '0' ==> n == 0
  {
    if n < 10 then [DigitChar(n)] else Show(n / 10) + [DigitChar(n % 10)]
  }

  /** The number a string of decimal digits denotes (a reference reading of `Show`). */
  function Value(s: string): int
  {
    if s == [] then 0 else Value(s[..|s| - 1]) * 10 + (s[|s| - 1] as int - '0' as int)
  }

  /** Reading back what `Show` printed gives the number again. */
  lemma {:induction false} ValueShow(n: nat)
    ensures Value(Show(n)) == n
  {
    var s := Show(n);
    if n >= 10 {
      ValueShow(n / 10);
      assert s[..|s| - 1] == Show(n / 10);
    }
  }

  /** Distinct numbers print differently. */
  lemma ShowInjective(m: nat, n: nat)
    requires Show(m) == Show(n)
    ensures m == n
  {
    ValueShow(m);
    ValueShow(n);
  }
}

=== FILE: filetree.dfy ===
/** The queue root as a value, and the filesystem primitives stq.py uses on it,
    each one atomic step.

    A queue root holds the directories `QUEUE`, `RUNNING`, `FAILED`,
    `FINISHED` and `PIDS`.  `QUEUE` holds script files; `RUNNING`, `FINISHED`
    and `FAILED` hold task folders, each a map from file name to file.  The
    state of a task is the directory it sits in; there is no other record. */
module FileTree {
  import Decimal

  datatype Stage = Running | Finished | Failed

  datatype Dir = Root | QueueDir | StageDir(stage: Stage) | PidsDir

  /** The subdirectories created at start-up, in the order of stq.py line 58. */
  const Layout: seq<Dir> := [QueueDir, StageDir(Running), StageDir(Failed), StageDir(Finished), PidsDir]

  const AllDirs: set<Dir> := {Root, QueueDir, StageDir(Running), StageDir(Failed), StageDir(Finished), PidsDir}

  /** A script file: its text and its modification time (an ordered key). */
  datatype Script = Script(content: string, mtime: int)

  /** A task folder under RUNNING, FINISHED or FAILED. */
  type Folder = map<string, Script>

  /** Names that `os.path.join(d, n)` resolves to `d` itself or its parent:
      they always exist. */
  predicate Special(n: string) {
    n == "" || n == "." || n == ".."
  }

  /** `os.path.exists(os.path.join(d, n))` for a directory `d` with entries `m`. */
  predicate Present<V>(m: map<string, V>, n: string) {
    n in m || Special(n)
  }

  /** Every name `Present` reports as existing: a finite set. */
  function Taken<V>(m: map<string, V>): (r: set<string>)
    ensures forall n :: n in r <==> Present(m, n)
  {
    m.Keys + {"", ".", ".."}
  }

  datatype Tree = Tree(
    dirs: set<Dir>,
    queue: map<string, Script>,
    running: map<string, Folder>,
    finished: map<string, Folder>,
    failed: map<string, Folder>)
  {
    function Folders(st: Stage): map<string, Folder> {
      match st
      case Running => running
      case Finished => finished
      case Failed => failed
    }

    function WithFolders(st: Stage, m: map<string, Folder>): (t: Tree)
      ensures t.Folders(st) == m && t.dirs == dirs && t.queue == queue
      ensures forall other | other != st :: t.Folders(other) == Folders(other)
    {
      match st
      case Running => this.(running := m)
      case Finished => this.(finished := m)
      case Failed => this.(failed := m)
    }
  }

  /** What a real directory tree guarantees and what stq.py keeps: no
      subdirectory without the root, nothing inside a missing directory, and
      every finished or failed task folder still holds its script. */
  ghost predicate WellFormed(t: Tree) {
    && (t.dirs <= {Root} || Root in t.dirs)
    && (QueueDir !in t.dirs ==> t.queue == map[])
    && (forall st | StageDir(st) !in t.dirs :: t.Folders(st) == map[])
    && (forall d | d in t.finished :: t.finished[d] != map[])
    && (forall d | d in t.failed :: t.failed[d] != map[])
  }

  // -----------------------------------------------------------------------
  // Primitives

  /** `os.mkdir` of a layout directory (stq.py lines 56-60). */
  function MakeDir(t: Tree, d: Dir): (r: Tree)
    ensures r.dirs == t.dirs + {d}
    ensures r.queue == t.queue && r.running == t.running && r.finished == t.finished && r.failed == t.failed
  {
    t.(dirs := t.dirs + {d})
  }

  /** Making a layout directory changes no file and keeps the tree well formed. */
  lemma MakeDirKeeps(t: Tree, d: Dir, where: map<nat, Loc>)
    requires WellFormed(t) && Tracks(t, where)
    requires d == Root || Root in t.dirs
    ensures WellFormed(MakeDir(t, d)) && Tracks(MakeDir(t, d), where)
  {
    var t' := MakeDir(t, d);
    forall l
      ensures At(t', l) <==> At(t, l)
    {
    }
  }

  /** `os.open(QUEUE/n, O_WRONLY | O_EXCL | O_CREAT)` succeeds. */
  predicate CanCreate(t: Tree, n: string): (ok: bool)
    ensures ok <==> QueueDir in t.dirs && n !in Taken(t.queue)
  {
    QueueDir in t.dirs && !Present(t.queue, n)
  }

  function Create(t: Tree, n: string, s: Script): (r: Tree)
    requires CanCreate(t, n)
    ensures r.queue.Keys == t.queue.Keys + {n} && r.queue[n] == s
    ensures forall m | m in t.queue :: r.queue[m] == t.queue[m]
    ensures r.dirs == t.dirs && r.running == t.running && r.finished == t.finished && r.failed == t.failed
  {
    t.(queue := t.queue[n := s])
  }

  /** `os.mkdir(RUNNING/w)` succeeds. */
  predicate CanMkdir(t: Tree, w: string): (ok: bool)
    ensures ok <==> StageDir(Running) in t.dirs && w !in Taken(t.running)
  {
    StageDir(Running) in t.dirs && !Present(t.running, w)
  }

  function Mkdir(t: Tree, w: string): (r: Tree)
    requires CanMkdir(t, w)
    ensures w in r.running && r.running[w] == map[] && r.running - {w} == t.running
    ensures r.dirs == t.dirs && r.queue == t.queue && r.finished == t.finished && r.failed == t.failed
  {
    t.(running := t.running[w := map[]])
  }

  /** `os.rename(QUEUE/s, RUNNING/w/s)` succeeds: the script is a queued task
      and the folder exists. */
  predicate CanMoveScript(t: Tree, s: string, w: string): (ok: bool)
    ensures ok <==> At(t, Queued(s)) && w in t.running
  {
    s in t.queue && w in t.running
  }

  /** The rename of a file: it leaves QUEUE and appears in the folder (a file
      already there under that name would be replaced, as POSIX does). */
  function MoveScript(t: Tree, s: string, w: string): (r: Tree)
    requires CanMoveScript(t, s, w)
    ensures r.queue == t.queue - {s}
    ensures w in r.running && r.running[w] == t.running[w][s := t.queue[s]]
    ensures r.running - {w} == t.running - {w}
    ensures r.dirs == t.dirs && r.finished == t.finished && r.failed == t.failed
  {
    t.(queue := t.queue - {s}, running := t.running[w := t.running[w][s := t.queue[s]]])
  }

  /** A stage folder is empty exactly when no task is filed in it. */
  lemma EmptyFolder(t: Tree, st: Stage, d: string)
    requires d in t.Folders(st)
    ensures t.Folders(st)[d] == map[] <==> forall n :: !At(t, Filed(st, d, n))
  {
    var m := t.Folders(st)[d];
    if m != map[] {
      var n :| n in m;
      assert At(t, Filed(st, d, n));
    }
  }

  /** `os.rmdir(RUNNING/w)` succeeds: the folder exists and holds no task. */
  predicate CanRmdir(t: Tree, w: string): (ok: bool)
    ensures ok <==> w in t.running && forall n :: !At(t, Filed(Running, w, n))
  {
    w in t.running && (EmptyFolder(t, Running, w); t.running[w] == map[])
  }

  function Rmdir(t: Tree, w: string): (r: Tree)
    requires CanRmdir(t, w)
    ensures r.running == t.running - {w}
    ensures r.dirs == t.dirs && r.queue == t.queue && r.finished == t.finished && r.failed == t.failed
  {
    t.(running := t.running - {w})
  }

  /** Removing the folder a mkdir just made gives back the tree before it. */
  lemma RmdirUndoesMkdir(t: Tree, w: string)
    requires CanMkdir(t, w)
    ensures CanRmdir(Mkdir(t, w), w) && Rmdir(Mkdir(t, w), w) == t
  {
    assert Mkdir(t, w).running - {w} == t.running;
  }

  /** `os.rename(RUNNING/w, ST/d)` succeeds: the source exists, the target
      directory exists, and `d` is absent or an empty directory (which POSIX
      rename replaces). */
  predicate CanMoveFolder(t: Tree, w: string, st: Stage, d: string): (ok: bool)
    ensures ok <==> && w in t.running && StageDir(st) in t.dirs && !Special(d)
                    && forall n :: !At(t, Filed(st, d, n))
  {
    && w in t.running
    && StageDir(st) in t.dirs
    && !Special(d)
    && (d in t.Folders(st) ==> (EmptyFolder(t, st, d); t.Folders(st)[d] == map[]))
  }

  function MoveFolder(t: Tree, w: string, st: Stage, d: string): (r: Tree)
    requires st != Running && CanMoveFolder(t, w, st, d)
    ensures r.running == t.running - {w}
    ensures d in r.Folders(st) && r.Folders(st)[d] == t.running[w]
    ensures r.Folders(st) - {d} == t.Folders(st) - {d}
    ensures st == Finished ==> r.failed == t.failed
    ensures st == Failed ==> r.finished == t.finished
    ensures r.dirs == t.dirs && r.queue == t.queue
  {
    t.(running := t.running - {w}).WithFolders(st, t.Folders(st)[d := t.running[w]])
  }

  /** Filing a non-empty folder keeps the tree well formed. */
  lemma MoveFolderWellFormed(t: Tree, w: string, st: Stage, d: string)
    requires WellFormed(t) && st != Running && CanMoveFolder(t, w, st, d)
    requires t.running[w] != map[]
    ensures WellFormed(MoveFolder(t, w, st, d))
  {
    var r := MoveFolder(t, w, st, d);
    assert r.Folders(st) == t.Folders(st)[d := t.running[w]];
  }

  /** In a well-formed tree a finished or failed folder is never empty, so a
      rename into FINISHED or FAILED never replaces an existing entry. */
  lemma MoveFolderNeverReplaces(t: Tree, w: string, st: Stage, d: string)
    requires WellFormed(t) && st != Running
    requires CanMoveFolder(t, w, st, d)
    ensures d !in t.Folders(st)
  {
  }

  // -----------------------------------------------------------------------
  // Other processes

  /** The RUNNING folder of a claim: `'{}-{}-{}'.format(host, pid, name)`. */
  function WorkDirName(host: string, pid: nat, script: string): (w: string)
    ensures |w| > |script| && w[|w| - |script|..] == script
    ensures !Special(w)
  {
    var w := host + "-" + Decimal.Show(pid) + "-" + script;
    assert w[|host|] == '-';
    w
  }

  /** The folder name does not tell hosts apart whose names contain `-`: two
      different workers can need the same RUNNING folder, and the second
      one's mkdir then fails. */
  lemma WorkDirNameCollides()
    ensures WorkDirName("n-1", 2, "x") == WorkDirName("n", 1, "2-x")
  {
    assert Decimal.Show(2) == "2" && Decimal.Show(1) == "1";
  }

  /** One atomic step of another process sharing the queue root. */
  datatype Rival =
    | RivalSubmit(name: string, script: Script)       // another submitter's exclusive create
    | RivalClaim(host: string, pid: nat, name: string) // another worker's claim

  /** A rival claim that loses its race removes its empty folder again, and
      one whose mkdir fails ends that process; neither leaves a trace.  A
      rival step only adds to QUEUE and RUNNING or moves a script from QUEUE
      into a new RUNNING folder. */
  function RivalStep(t: Tree, r: Rival): (u: Tree)
    ensures u.dirs == t.dirs && u.finished == t.finished && u.failed == t.failed
  {
    match r
    case RivalSubmit(n, s) =>
      if CanCreate(t, n) then Create(t, n, s) else t
    case RivalClaim(h, p, n) =>
      var w := WorkDirName(h, p, n);
      if CanMkdir(t, w) && n in t.queue then MoveScript(Mkdir(t, w), n, w) else t
  }

  /** The rival steps, in order.  They keep the layout and all of FINISHED
      and FAILED. */
  function AfterRivals(t: Tree, rs: seq<Rival>): (u: Tree)
    ensures u.dirs == t.dirs && u.finished == t.finished && u.failed == t.failed
    decreases |rs|
  {
    if rs == [] then t else RivalStep(AfterRivals(t, rs[..|rs| - 1]), rs[|rs| - 1])
  }

  /** Rivals only add RUNNING folders or fill new ones: every existing RUNNING
      folder stays as it was. */
  lemma {:induction false} RivalsKeep(t: Tree, rs: seq<Rival>)
    ensures var u := AfterRivals(t, rs);
      && t.running.Keys <= u.running.Keys
      && (forall w | w in t.running :: u.running[w] == t.running[w])
  {
    if rs != [] {
      RivalsKeep(t, rs[..|rs| - 1]);
    }
  }

  lemma {:induction false} RivalsWellFormed(t: Tree, rs: seq<Rival>)
    requires WellFormed(t)
    ensures WellFormed(AfterRivals(t, rs))
  {
    if rs != [] {
      RivalsWellFormed(t, rs[..|rs| - 1]);
    }
  }

  lemma RivalStepWellFormed(t: Tree, r: Rival)
    requires WellFormed(t)
    ensures WellFormed(RivalStep(t, r))
  {
    assert [r][..0] == [];
    RivalsWellFormed(t, [r]);
  }

  /** Two workers racing for one script: once a rival has claimed it, it is no
      longer in QUEUE, so no later claim of it can succeed. */
  lemma RivalClaimTakesScript(t: Tree, h: string, p: nat, n: string)
    requires CanMkdir(t, WorkDirName(h, p, n)) && n in t.queue
    ensures var r := AfterRivals(t, [RivalClaim(h, p, n)]);
      && n !in r.queue
      && WorkDirName(h, p, n) in r.running
      && r.running[WorkDirName(h, p, n)] == map[n := t.queue[n]]
  {
    assert [RivalClaim(h, p, n)][..0] == [];
  }

  // -----------------------------------------------------------------------
  // Where every task is

  /** A place a task can be: a QUEUE file, or a file in a stage folder. */
  datatype Loc = Queued(name: string) | Filed(stage: Stage, folder: string, name: string)

  /** Every occupied place, as a finite set. */
  ghost function Occupied(t: Tree): (r: set<Loc>)
    ensures forall l :: l in r <==> At(t, l)
  {
    (set n | n in t.queue :: Queued(n))
    + (set d, n | d in t.running && n in t.running[d] :: Filed(Running, d, n))
    + (set d, n | d in t.finished && n in t.finished[d] :: Filed(Finished, d, n))
    + (set d, n | d in t.failed && n in t.failed[d] :: Filed(Failed, d, n))
  }

  predicate At(t: Tree, l: Loc) {
    match l
    case Queued(n) => n in t.queue
    case Filed(st, d, n) => d in t.Folders(st) && n in t.Folders(st)[d]
  }

  /** `where` gives every task its one location: each task is at a place that
      exists, every occupied place belongs to a task, and no two tasks share a
      place.  So every task is in exactly one state directory, and no task is
      lost or duplicated. */
  ghost predicate Tracks(t: Tree, where: map<nat, Loc>) {
    && (forall id | id in where :: At(t, where[id]))
    && (forall l | At(t, l) :: l in where.Values)
    && (forall i, j | i in where && j in where && i != j :: where[i] != where[j])
  }

  ghost function ScriptMoved(where: map<nat, Loc>, s: string, w: string): map<nat, Loc> {
    map id | id in where :: if where[id] == Queued(s) then Filed(Running, w, s) else where[id]
  }

  ghost function FolderMoved(where: map<nat, Loc>, w: string, st: Stage, d: string): map<nat, Loc> {
    map id | id in where ::
      if where[id].Filed? && where[id].stage == Running && where[id].folder == w
      then Filed(st, d, where[id].name) else where[id]
  }

  /** An exclusive create adds one new task, in QUEUE. */
  lemma CreateTracks(t: Tree, n: string, s: Script, where: map<nat, Loc>, id: nat)
    requires Tracks(t, where) && CanCreate(t, n) && id !in where
    ensures Tracks(Create(t, n, s), where[id := Queued(n)])
  {
    var t', w' := Create(t, n, s), where[id := Queued(n)];
    forall l | At(t', l)
      ensures l in w'.Values
    {
      if l == Queued(n) {
        assert w'[id] == l;
      } else {
        assert At(t, l);
        var i :| i in where && where[i] == l;
        assert w'[i] == l;
      }
    }
    forall i, j | i in w' && j in w' && i != j
      ensures w'[i] != w'[j]
    {
      if j == id && i != id {
        assert At(t, where[i]);
      } else if i == id && j != id {
        assert At(t, where[j]);
      }
    }
  }

  /** A new, empty folder holds no task. */
  lemma MkdirTracks(t: Tree, w: string, where: map<nat, Loc>)
    requires Tracks(t, where) && CanMkdir(t, w)
    ensures Tracks(Mkdir(t, w), where)
  {
    var t' := Mkdir(t, w);
    forall l
      ensures At(t', l) <==> At(t, l)
    {
    }
  }

  lemma RmdirTracks(t: Tree, w: string, where: map<nat, Loc>)
    requires Tracks(t, where) && CanRmdir(t, w)
    ensures Tracks(Rmdir(t, w), where)
  {
    var t' := Rmdir(t, w);
    forall l
      ensures At(t', l) <==> At(t, l)
    {
    }
  }

  /** What is where after the claim's rename: the script in the worker's
      folder instead of QUEUE, everything else unchanged. */
  lemma MoveScriptAt(t: Tree, s: string, w: string, l: Loc)
    requires CanMoveScript(t, s, w)
    ensures At(MoveScript(t, s, w), l) <==> l == Filed(Running, w, s) || (At(t, l) && l != Queued(s))
  {
    var t' := MoveScript(t, s, w);
    assert t'.queue == t.queue - {s};
    assert t'.running == t.running[w := t.running[w][s := t.queue[s]]];
  }

  /** Claiming moves exactly one task, from QUEUE into the worker's folder. */
  lemma MoveScriptTracks(t: Tree, s: string, w: string, where: map<nat, Loc>)
    requires Tracks(t, where) && CanMoveScript(t, s, w) && s !in t.running[w]
    ensures Tracks(MoveScript(t, s, w), ScriptMoved(where, s, w))
  {
    var t', w' := MoveScript(t, s, w), ScriptMoved(where, s, w);
    var dest := Filed(Running, w, s);
    assert !At(t, dest) && At(t, Queued(s));
    forall id | id in w'
      ensures At(t', w'[id])
    {
      assert At(t, where[id]);
      MoveScriptAt(t, s, w, w'[id]);
    }
    forall l | At(t', l)
      ensures l in w'.Values
    {
      MoveScriptAt(t, s, w, l);
      if l == dest {
        var i :| i in where && where[i] == Queued(s);
        assert w'[i] == l;
      } else {
        var i :| i in where && where[i] == l;
        assert w'[i] == l;
      }
    }
    forall i, j | i in w' && j in w' && i != j
      ensures w'[i] != w'[j]
    {
      assert At(t, where[i]) && At(t, where[j]);
    }
  }

  /** What is where after a folder rename: the folder's files under the new
      folder name, everything else unchanged. */
  lemma MoveFolderAt(t: Tree, w: string, st: Stage, d: string, l: Loc)
    requires st != Running && CanMoveFolder(t, w, st, d)
    ensures At(MoveFolder(t, w, st, d), l) <==>
      if l.Filed? && l.stage == st && l.folder == d then At(t, Filed(Running, w, l.name))
      else At(t, l) && !(l.Filed? && l.stage == Running && l.folder == w)
  {
    var t' := MoveFolder(t, w, st, d);
    assert t'.Folders(st) == t.Folders(st)[d := t.running[w]];
    assert t'.running == t.running - {w};
  }

  /** Finalizing moves every task of the folder, and nothing else, into the
      destination folder. */
  lemma MoveFolderTracks(t: Tree, w: string, st: Stage, d: string, where: map<nat, Loc>)
    requires Tracks(t, where) && st != Running && CanMoveFolder(t, w, st, d)
    ensures Tracks(MoveFolder(t, w, st, d), FolderMoved(where, w, st, d))
  {
    var t', w' := MoveFolder(t, w, st, d), FolderMoved(where, w, st, d);
    forall id | id in w'
      ensures At(t', w'[id])
    {
      assert At(t, where[id]);
      MoveFolderAt(t, w, st, d, w'[id]);
    }
    forall l | At(t', l)
      ensures l in w'.Values
    {
      MoveFolderCovers(t, w, st, d, where, l);
    }
    forall i, j | i in w' && j in w' && i != j
      ensures w'[i] != w'[j]
    {
      MoveFolderSeparates(t, w, st, d, where, i, j);
    }
  }

  /** Two tasks stay in two places. */
  lemma MoveFolderSeparates(t: Tree, w: string, st: Stage, d: string, where: map<nat, Loc>, i: nat, j: nat)
    requires Tracks(t, where) && st != Running && CanMoveFolder(t, w, st, d)
    requires i in where && j in where && i != j
    ensures FolderMoved(where, w, st, d)[i] != FolderMoved(where, w, st, d)[j]
  {
    assert At(t, where[i]) && At(t, where[j]);
  }

  /** Every task found after the rename had a task id before it. */
  lemma MoveFolderCovers(t: Tree, w: string, st: Stage, d: string, where: map<nat, Loc>, l: Loc)
    requires Tracks(t, where) && st != Running && CanMoveFolder(t, w, st, d)
    requires At(MoveFolder(t, w, st, d), l)
    ensures l in FolderMoved(where, w, st, d).Values
  {
    var w' := FolderMoved(where, w, st, d);
    MoveFolderAt(t, w, st, d, l);
    if l.Filed? && l.stage == st && l.folder == d {
      var src := Filed(Running, w, l.name);
      var i :| i in where && where[i] == src;
      assert w'[i] == l;
    } else {
      var i :| i in where && where[i] == l;
      assert w'[i] == l;
    }
  }

  /** A rival's step keeps every task tracked, with a fresh id for a rival
      submission. */
  lemma RivalStepTracks(t: Tree, r: Rival, where: map<nat, Loc>, id: nat)
    requires Tracks(t, where) && id !in where
    ensures Tracks(RivalStep(t, r), RivalMoved(t, r, where, id))
  {
    match r
    case RivalSubmit(n, s) =>
      if CanCreate(t, n) {
        CreateTracks(t, n, s, where, id);
      }
    case RivalClaim(h, p, n) =>
      var w := WorkDirName(h, p, n);
      if CanMkdir(t, w) && n in t.queue {
        MkdirTracks(t, w, where);
        MoveScriptTracks(Mkdir(t, w), n, w, where);
      }
  }

  /** How a rival's step relocates tasks. */
  ghost function RivalMoved(t: Tree, r: Rival, where: map<nat, Loc>, id: nat): (w: map<nat, Loc>)
  {
    match r
    case RivalSubmit(n, s) =>
      if CanCreate(t, n) then where[id := Queued(n)] else where
    case RivalClaim(h, p, n) =>
      var w := WorkDirName(h, p, n);
      if CanMkdir(t, w) && n in t.queue then ScriptMoved(where, n, w) else where
  }

  /** How a sequence of rival steps relocates tasks: step `i` runs on the tree
      the earlier steps left and a submission among them gets id `id + i`. */
  ghost function RivalsMoved(t: Tree, rs: seq<Rival>, where: map<nat, Loc>, id: nat): map<nat, Loc>
    decreases |rs|
  {
    if rs == [] then where
    else
      var k := |rs| - 1;
      RivalMoved(AfterRivals(t, rs[..k]), rs[k], RivalsMoved(t, rs[..k], where, id), id + k)
  }

  /** Rivals never make a task forgotten. */
  lemma {:induction false} RivalsMovedKeeps(t: Tree, rs: seq<Rival>, where: map<nat, Loc>, id: nat)
    ensures where.Keys <= RivalsMoved(t, rs, where, id).Keys
    decreases |rs|
  {
    if rs != [] {
      RivalsMovedKeeps(t, rs[..|rs| - 1], where, id);
    }
  }
}

=== FILE: naming.dfy ===
/** The pure string rules of task submission (stq.py lines 63-82): the task
    name derived from a command, the `_N` suffixes tried when a name is taken,
    and the text of the queued shell script. */
module Naming {
  import Decimal

  datatype Option<T> = None | Some(value: T)

  /** Python truthiness of an optional string argument: `None` and `""` are
      both false. */
  predicate Given(o: Option<string>) {
    o.Some? && o.value != ""
  }

  // ---------------------------------------------------------------------
  // Probed names: `name`, `name_1`, `name_2`, ...

  /** The `k`-th name tried for `base`: `base` itself, then `'{}_{}'.format(base, k)`. */
  function Suffixed(base: string, k: nat): (r: string)
    ensures k == 0 ==> r == base
    ensures k > 0 ==> |r| > |base| + 1 && r[..|base|] == base && r[|base|] == '_'
    ensures k > 0 ==> Decimal.Value(r[|base| + 1..]) == k
  {
    if k == 0 then base
    else
      var r := base + "_" + Decimal.Show(k);
      assert r[|base| + 1..] == Decimal.Show(k);
      Decimal.ValueShow(k);
      r
  }

  /** Different attempts never produce the same name, so probing never
      revisits a name. */
  lemma SuffixedInjective(base: string, j: nat, k: nat)
    requires Suffixed(base, j) == Suffixed(base, k)
    ensures j == k
  {
    if j > 0 && k > 0 {
      var s := Suffixed(base, j);
      assert s[|base| + 1..] == Decimal.Show(j);
      assert s[|base| + 1..] == Decimal.Show(k);
      Decimal.ShowInjective(j, k);
    }
  }

  /** If the first `k` attempts all hit a name of the finite set `taken`, then
      `k` is at most the size of `taken`: a probe over a finite directory stops. */
  lemma {:induction false} ProbeBound(base: string, k: nat, taken: set<string>)
    requires forall j | 0 <= j < k :: Suffixed(base, j) in taken
    ensures k <= |taken|
  {
    if k > 0 {
      var n: nat := k - 1;
      var last := Suffixed(base, n);
      forall j | 0 <= j < n
        ensures Suffixed(base, j) in taken - {last}
      {
        if Suffixed(base, j) == last {
          SuffixedInjective(base, j, n);
        }
      }
      ProbeBound(base, n, taken - {last});
    }
  }

  // ---------------------------------------------------------------------
  // Task-name derivation: `command.lstrip('./').translate(maketrans('/"\' ;', '___--'), '\\')`

  predicate Stripped(c: char) {
    c == '.' || c == '/'
  }

  /** `str.lstrip('./')`: drops the whole leading run of `.` and `/`. */
  function LStrip(s: string): (r: string)
    ensures |r| <= |s| && r == s[|s| - |r|..]
    ensures forall i | 0 <= i < |s| - |r| :: Stripped(s[i])
    ensures r == [] || !Stripped(r[0])
  {
    if s != [] && Stripped(s[0]) then LStrip(s[1..]) else s
  }

  /** Characters that never appear in a derived task name. */
  predicate Unsafe(c: char) {
    c == '/' || c == '"' || c == '\'' || c == ' ' || c == ';' || c == '\\'
  }

  /** The translation table for the characters that are kept. */
  function Replace(c: char): (r: char)
    ensures c == '/' || c == '"' || c == '\'' ==> r == '_'
    ensures c == ' ' || c == ';' ==> r == '-'
    ensures !Unsafe(r) || c == '\\'
    ensures !Unsafe(c) ==> r == c
  {
    if c == '/' || c == '"' || c == '\'' then '_'
    else if c == ' ' || c == ';' then '-'
    else c
  }

  /** Python 2 `str.translate(table, '\\')`: backslashes deleted, every other
      character passed through `Replace`. */
  function Translate(s: string): (r: string)
    ensures |r| <= |s|
    ensures forall i | 0 <= i < |r| :: !Unsafe(r[i])
  {
    if s == [] then []
    else (if s[0] == '\\' then [] else [Replace(s[0])]) + Translate(s[1..])
  }

  /** Translation works character by character. */
  lemma {:induction false} TranslateAppend(a: string, b: string)
    ensures Translate(a + b) == Translate(a) + Translate(b)
  {
    if a != [] {
      var head := if a[0] == '\\' then [] else [Replace(a[0])];
      assert (a + b)[0] == a[0] && (a + b)[1..] == a[1..] + b;
      assert Translate(a + b) == head + Translate(a[1..] + b);
      TranslateAppend(a[1..], b);
    } else {
      assert a + b == b;
    }
  }

  /** Without backslashes translation keeps every position and maps each
      character on its own. */
  lemma {:induction false} TranslateAt(s: string, i: nat)
    requires forall j | 0 <= j < |s| :: s[j] != '\\'
    requires i < |s|
    ensures |Translate(s)| == |s| && Translate(s)[i] == Replace(s[i])
  {
    if i > 0 {
      TranslateAt(s[1..], i - 1);
    } else if |s| > 1 {
      TranslateAt(s[1..], 0);
    }
  }

  /** A name that is already safe is left as it is, so translating twice is
      translating once. */
  lemma {:induction false} TranslateSafe(s: string)
    requires forall i | 0 <= i < |s| :: !Unsafe(s[i])
    ensures Translate(s) == s
  {
    if s != [] {
      TranslateSafe(s[1..]);
    }
  }

  lemma TranslateIdempotent(s: string)
    ensures Translate(Translate(s)) == Translate(s)
  {
    TranslateSafe(Translate(s));
  }

  /** The task name derived from a command (stq.py line 68). */
  function DeriveTaskName(command: string): (r: string)
    ensures |r| <= |command|
    ensures forall i | 0 <= i < |r| :: !Unsafe(r[i])
  {
    Translate(LStrip(command))
  }

  /** The leading `./` run goes first, then each kept character is mapped:
      the derived name is the translation of the command without that run. */
  lemma DeriveTaskNameSplits(command: string, k: nat)
    requires k <= |command|
    requires forall i | 0 <= i < k :: Stripped(command[i])
    requires k == |command| || !Stripped(command[k])
    ensures DeriveTaskName(command) == Translate(command[k..])
  {
  }

  lemma DeriveEchoHi()
    ensures DeriveTaskName("echo hi") == "echo-hi"
  {
    var s := "echo hi";
    assert !Stripped(s[0]);
    assert s == "echo" + " " + "hi";
    TranslateSafe("echo");
    TranslateSafe("hi");
    assert Translate(" ") == "-";
    TranslateAppend("echo", " ");
    TranslateAppend("echo" + " ", "hi");
  }

  lemma DeriveDotDotSlash()
    ensures DeriveTaskName("../x") == "x"
  {
    var s := "../x";
    assert s[3..] == "x" && !Stripped(s[3]);
    assert Stripped(s[0]) && Stripped(s[1]) && Stripped(s[2]);
    DeriveTaskNameSplits(s, 3);
    TranslateSafe("x");
  }

  /** A backslash hides a leading dot from `lstrip`, so a derived name can
      still be `..`, which names the queue root itself. */
  lemma DeriveBackslashDots()
    ensures DeriveTaskName("\\..") == ".."
  {
    assert LStrip("\\..") == "\\..";
    assert "\\.."[1..] == "..";
  }

  /** The name a submission starts probing from (stq.py lines 64-68): an
      explicit non-empty `--task-name` verbatim, otherwise the derived name. */
  function TaskName(explicit: Option<string>, command: string): (r: string)
    ensures Given(explicit) ==> r == explicit.value
    ensures !Given(explicit) ==> r == DeriveTaskName(command)
  {
    if Given(explicit) then explicit.value else DeriveTaskName(command)
  }

  // ---------------------------------------------------------------------
  // Script content (stq.py lines 79-82)

  const Shebang: string := "#!/bin/bash\n"

  /** The line changing to the working directory; absent without a non-empty
      `--working-dir`. */
  function CdLine(workingDir: Option<string>): (r: string)
    ensures Given(workingDir) <==> r != []
  {
    if Given(workingDir) then "cd " + workingDir.value + "\n" else ""
  }

  /** The text written into the QUEUE file: shebang, optional `cd` line,
      then the command verbatim with no newline added. */
  function ScriptContent(command: string, workingDir: Option<string>): (r: string)
    ensures |r| == |Shebang| + |CdLine(workingDir)| + |command|
    ensures r[..|Shebang|] == Shebang
    ensures r[|Shebang|..|r| - |command|] == CdLine(workingDir)
    ensures r[|r| - |command|..] == command
  {
    Shebang + CdLine(workingDir) + command
  }

  lemma ScriptExample()
    ensures ScriptContent("echo hi", None) == "#!/bin/bash\necho hi"
    ensures ScriptContent("make", Some("/tmp/w")) == "#!/bin/bash\ncd /tmp/w\nmake"
    ensures ScriptContent("make", Some("")) == "#!/bin/bash\nmake"
  {
  }
}

=== FILE: queue_root.dfy ===
/** The task store: one queue root, changed in place by the submitter and the
    worker through the primitives of `FileTree` (stq.py lines 56-84 and
    112-148). */
module TaskStore {
  import opened Naming
  import opened FileTree

  /** The exceptions stq.py lets escape. */
  datatype Error =
    | ListFailed                  // the listdir of line 102 found no QUEUE
    | CreateFailed(name: string)  // the exclusive create of line 77 found the name taken
    | MkdirFailed(work: string)   // the mkdir of line 116 could not create the folder
    | FinalizeFailed              // the IOError of line 146

  datatype Result<T> = Ok(value: T) | Err(error: Error)

  /** Where a finished task was filed. */
  datatype Placement = Placement(stage: Stage, name: string)

  datatype ClaimResult = Claimed(work: string) | LostRace | ClaimFailed(error: Error)

  /** `name` is attempt `k` of the probe from `base`, absent from `m`, and
      every earlier attempt is present in `m`. */
  predicate FirstFree<V>(m: map<string, V>, base: string, k: nat, name: string) {
    && name == Suffixed(base, k)
    && !Present(m, name)
    && forall j | 0 <= j < k :: Present(m, Suffixed(base, j))
  }

  ghost predicate Probed<V>(m: map<string, V>, base: string, name: string) {
    exists k: nat :: FirstFree(m, base, k, name)
  }

  /** The stage a task is filed under for its exit status. */
  function StageFor(exitStatus: int): (st: Stage)
    ensures st == Finished <==> exitStatus == 0
    ensures st != Running
  {
    if exitStatus == 0 then Finished else Failed
  }

  class QueueRoot {
    var fs: Tree
    /** The location of every task ever created in this root. */
    ghost var where: map<nat, Loc>
    ghost var nextId: nat

    ghost predicate Valid()
      reads this
    {
      && WellFormed(fs)
      && Tracks(fs, where)
      && (forall id | id in where :: id < nextId)
    }

    /** Opens an existing tree, giving every file already in it a task id. */
    constructor (t: Tree)
      requires WellFormed(t)
      ensures Valid() && fs == t
    {
      ghost var todo := Occupied(t);
      ghost var w: map<nat, Loc> := map[];
      ghost var k: nat := 0;
      while todo != {}
        invariant forall l :: At(t, l) <==> l in todo || l in w.Values
        invariant forall id | id in w :: At(t, w[id]) && id < k && w[id] !in todo
        invariant forall i, j | i in w && j in w && i != j :: w[i] != w[j]
        decreases todo
      {
        var l :| l in todo;
        ghost var w' := w[k := l];
        forall m
          ensures m in w'.Values <==> m in w.Values || m == l
        {
          if m in w.Values {
            var i :| i in w && w[i] == m;
            assert w'[i] == m;
          }
          if m == l {
            assert w'[k] == l;
          }
        }
        w := w';
        k := k + 1;
        todo := todo - {l};
      }
      fs := t;
      where := w;
      nextId := k;
    }

    /** Creates the root and any missing subdirectory, touching nothing else
        (stq.py lines 56-60). */
    method EnsureLayout()
      requires Valid()
      modifies this
      ensures Valid() && where == old(where) && nextId == old(nextId)
      ensures fs == WithLayout(old(fs))
    {
      if Root !in fs.dirs {
        MakeDirKeeps(fs, Root, where);
        fs := MakeDir(fs, Root);
      }
      for i := 0 to |Layout|
        invariant Valid() && where == old(where) && nextId == old(nextId)
        invariant fs == old(fs).(dirs := fs.dirs)
        invariant forall d :: d in fs.dirs <==> d in old(fs).dirs || d == Root || d in Layout[..i]
      {
        if Layout[i] !in fs.dirs {
          MakeDirKeeps(fs, Layout[i], where);
          fs := MakeDir(fs, Layout[i]);
        }
      }
      assert Layout[..|Layout|] == Layout;
      assert fs.dirs == old(fs).dirs + AllDirs;
    }

    /** The name probe of stq.py lines 69-75: the first of `base`, `base_1`,
        `base_2`, ... that does not exist in QUEUE. */
    method ProbeQueueName(base: string) returns (k: nat, name: string)
      ensures FirstFree(fs.queue, base, k, name)
    {
      k, name := 0, base;
      while Present(fs.queue, name)
        invariant name == Suffixed(base, k)
        invariant forall j | 0 <= j < k :: Present(fs.queue, Suffixed(base, j))
        decreases |Taken(fs.queue)| - k
      {
        ProbeBound(base, k + 1, Taken(fs.queue));
        k := k + 1;
        name := Suffixed(base, k);
      }
    }

    /** One atomic step of another process; a rival's new script gets the
        next task id. */
    method RivalAct(r: Rival)
      requires Valid()
      modifies this
      ensures Valid() && fs == RivalStep(old(fs), r)
      ensures where == RivalMoved(old(fs), r, old(where), old(nextId)) && nextId == old(nextId) + 1
    {
      ghost var moved := RivalMoved(fs, r, where, nextId);
      var next := RivalStep(fs, r);
      RivalStepTracks(fs, r, where, nextId);
      RivalStepWellFormed(fs, r);
      assert forall id | id in moved :: id < nextId + 1;
      where, nextId, fs := moved, nextId + 1, next;
    }

    /** Other processes' atomic steps, applied in order. */
    method Interference(rivals: seq<Rival>)
      requires Valid()
      modifies this
      ensures Valid() && fs == AfterRivals(old(fs), rivals)
      ensures where == RivalsMoved(old(fs), rivals, old(where), old(nextId))
      ensures nextId == old(nextId) + |rivals|
      decreases |rivals|
    {
      if rivals != [] {
        Interference(rivals[..|rivals| - 1]);
        RivalAct(rivals[|rivals| - 1]);
      }
    }

    /** Task submission (stq.py lines 63-83): probe for a free name, then one
        exclusive create with the script text.  Rivals may act between the
        probe and the create; a name taken by then makes the create fail, and
        nothing is retried or overwritten. */
    method Submit(command: string, explicit: Option<string>, workingDir: Option<string>,
                  now: int, rivals: seq<Rival>)
      returns (r: Result<string>)
      requires Valid()
      modifies this
      ensures Valid()
      ensures r.Err? ==> r.error.CreateFailed?
      ensures var name := if r.Ok? then r.value else r.error.name;
        && Probed(old(fs).queue, TaskName(explicit, command), name)
        && var mid := AfterRivals(old(fs), rivals);
        if r.Ok? then CanCreate(mid, name) && fs == Create(mid, name, Script(ScriptContent(command, workingDir), now))
        else !CanCreate(mid, name) && fs == mid
      ensures old(where).Keys <= where.Keys
      ensures var moved := RivalsMoved(old(fs), rivals, old(where), old(nextId));
        where == if r.Ok? then moved[old(nextId) + |rivals| := Queued(r.value)] else moved
    {
      var base := TaskName(explicit, command);
      var k, name := ProbeQueueName(base);
      RivalsMovedKeeps(fs, rivals, where, nextId);
      Interference(rivals);
      if CanCreate(fs, name) {
        CreateFile(name, Script(ScriptContent(command, workingDir), now));
        r := Ok(name);
      } else {
        r := Err(CreateFailed(name));
      }
    }

    /** `os.listdir(QUEUE)`: every entry once, in no particular order; it
        raises when QUEUE is missing. */
    method ListQueue() returns (r: Result<seq<string>>)
      ensures r.Err? <==> QueueDir !in fs.dirs
      ensures r.Err? ==> r.error == ListFailed
      ensures r.Ok? ==> forall f :: f in r.value <==> f in fs.queue
      ensures r.Ok? ==> forall i, j | 0 <= i < j < |r.value| :: r.value[i] != r.value[j]
    {
      if QueueDir !in fs.dirs {
        return Err(ListFailed);
      }
      var files: seq<string> := [];
      var rest := fs.queue.Keys;
      while rest != {}
        invariant forall f :: f in fs.queue <==> f in files || f in rest
        invariant forall f | f in files :: f !in rest
        invariant forall i, j | 0 <= i < j < |files| :: files[i] != files[j]
        decreases rest
      {
        var f :| f in rest;
        files := files + [f];
        rest := rest - {f};
      }
      r := Ok(files);
    }

    /** The claim of stq.py lines 115-124: mkdir of `RUNNING/<host>-<pid>-<script>`,
        then the rename of the script into it.  Rivals may act between the
        two.  The claim succeeds exactly when the script is still queued;
        otherwise the empty folder is removed again. */
    method Claim(host: string, pid: nat, script: string, rivals: seq<Rival>)
      returns (r: ClaimResult)
      requires Valid()
      modifies this
      ensures Valid()
      ensures var w := WorkDirName(host, pid, script);
        if !CanMkdir(old(fs), w) then r == ClaimFailed(MkdirFailed(w)) && fs == old(fs)
        else
          var mid := AfterRivals(Mkdir(old(fs), w), rivals);
          && w in mid.running && mid.running[w] == map[]
          && (r.Claimed? <==> script in mid.queue)
          && (r.Claimed? ==> r.work == w && fs == MoveScript(mid, script, w)
                             && fs.running[w] == map[script := mid.queue[script]])
          && (!r.Claimed? ==> r == LostRace && fs == Rmdir(mid, w))
      ensures old(where).Keys <= where.Keys
      ensures var w := WorkDirName(host, pid, script);
        if !CanMkdir(old(fs), w) then where == old(where)
        else
          var moved := RivalsMoved(Mkdir(old(fs), w), rivals, old(where), old(nextId));
          where == if r.Claimed? then ScriptMoved(moved, script, w) else moved
    {
      var w := WorkDirName(host, pid, script);
      if !CanMkdir(fs, w) {
        return ClaimFailed(MkdirFailed(w));
      }
      MakeWorkDir(w);
      ghost var made := fs;
      RivalsMovedKeeps(fs, rivals, where, nextId);
      Interference(rivals);
      RivalsKeep(made, rivals);
      if script in fs.queue {
        TakeScript(script, w);
        r := Claimed(w);
      } else {
        RemoveWorkDir(w);
        r := LostRace;
      }
    }

    /** The finalize loop of stq.py lines 137-148: rename the work folder into
        FINISHED (exit status 0) or FAILED (any other status), trying
        `script`, `script_1`, ... while the rename fails because the name is
        taken, and failing when a rename fails on an absent name. */
    method Finalize(work: string, script: string, exitStatus: int) returns (r: Result<Placement>)
      requires Valid()
      requires work in fs.running ==> fs.running[work] != map[]
      modifies this
      ensures Valid()
      ensures r.Ok? ==> (r.value.stage == Finished <==> exitStatus == 0)
      ensures var st := StageFor(exitStatus);
        && (r.Err? <==> work !in old(fs).running || StageDir(st) !in old(fs).dirs)
        && (r.Err? ==> r.error == FinalizeFailed && fs == old(fs))
        && (r.Ok? ==> r.value.stage == st
                      && Probed(old(fs).Folders(st), script, r.value.name)
                      && fs == MoveFolder(old(fs), work, st, r.value.name))
      ensures old(where).Keys <= where.Keys
      ensures where == if r.Ok? then FolderMoved(old(where), work, StageFor(exitStatus), r.value.name) else old(where)
    {
      var st := StageFor(exitStatus);
      var k, name := 0, script;
      ghost var dest := fs.Folders(st);
      ghost var taken := Taken(dest);
      while true
        invariant Valid() && fs == old(fs) && where == old(where) && nextId == old(nextId)
        invariant name == Suffixed(script, k)
        invariant forall j | 0 <= j < k :: Suffixed(script, j) in taken
        invariant k <= |taken|
        decreases |taken| - k
      {
        if CanMoveFolder(fs, work, st, name) {
          MoveFolderNeverReplaces(fs, work, st, name);
          assert forall j | 0 <= j < k :: Present(dest, Suffixed(script, j));
          assert FirstFree(dest, script, k, name);
          FileFolder(work, st, name);
          return Ok(Placement(st, name));
        }
        if !Present(fs.Folders(st), name) {
          assert work !in fs.running || StageDir(st) !in fs.dirs;
          return Err(FinalizeFailed);
        }
        forall j | 0 <= j < k + 1
          ensures Suffixed(script, j) in taken
        {
          if j == k {
            assert Suffixed(script, j) == name;
          }
        }
        ProbeBound(script, k + 1, taken);
        k := k + 1;
        name := Suffixed(script, k);
      }
    }

    /** The exclusive create of a QUEUE file: a new task. */
    method CreateFile(name: string, s: Script)
      requires Valid() && CanCreate(fs, name)
      modifies this
      ensures Valid() && fs == Create(old(fs), name, s)
      ensures where == old(where)[old(nextId) := Queued(name)] && nextId == old(nextId) + 1
    {
      CreateTracks(fs, name, s, where, nextId);
      where, nextId, fs := where[nextId := Queued(name)], nextId + 1, Create(fs, name, s);
    }

    /** The mkdir of a claim. */
    method MakeWorkDir(w: string)
      requires Valid() && CanMkdir(fs, w)
      modifies this
      ensures Valid() && fs == Mkdir(old(fs), w) && where == old(where) && nextId == old(nextId)
    {
      MkdirTracks(fs, w, where);
      fs := Mkdir(fs, w);
    }

    /** The rename of a claimed script into the worker's folder. */
    method TakeScript(script: string, w: string)
      requires Valid() && CanMoveScript(fs, script, w) && fs.running[w] == map[]
      modifies this
      ensures Valid() && fs == MoveScript(old(fs), script, w)
      ensures where == ScriptMoved(old(where), script, w) && nextId == old(nextId)
    {
      MoveScriptTracks(fs, script, w, where);
      where, fs := ScriptMoved(where, script, w), MoveScript(fs, script, w);
    }

    /** The rmdir after a lost race. */
    method RemoveWorkDir(w: string)
      requires Valid() && CanRmdir(fs, w)
      modifies this
      ensures Valid() && fs == Rmdir(old(fs), w) && where == old(where) && nextId == old(nextId)
    {
      RmdirTracks(fs, w, where);
      fs := Rmdir(fs, w);
    }

    /** The successful rename of Finalize, one atomic step. */
    method FileFolder(work: string, st: Stage, name: string)
      requires Valid() && st != Running && CanMoveFolder(fs, work, st, name)
      requires fs.running[work] != map[]
      modifies this
      ensures Valid() && fs == MoveFolder(old(fs), work, st, name)
      ensures where == FolderMoved(old(where), work, st, name)
    {
      MoveFolderTracks(fs, work, st, name, where);
      MoveFolderWellFormed(fs, work, st, name);
      where := FolderMoved(where, work, st, name);
      fs := MoveFolder(fs, work, st, name);
    }
  }

  /** The tree after layout creation: every layout directory exists. */
  function WithLayout(t: Tree): (r: Tree)
    ensures AllDirs <= r.dirs && r.dirs - AllDirs == t.dirs - AllDirs
    ensures r.queue == t.queue && r.running == t.running && r.finished == t.finished && r.failed == t.failed
  {
    t.(dirs := t.dirs + AllDirs)
  }

  /** Layout creation keeps a well-formed tree well formed. */
  lemma LayoutKeepsWellFormed(t: Tree)
    requires WellFormed(t)
    ensures WellFormed(WithLayout(t))
  {
  }

  /** Creating the layout twice gives the same tree as creating it once. */
  lemma LayoutIdempotent(t: Tree)
    ensures WithLayout(WithLayout(t)) == WithLayout(t)
  {
  }
}

=== FILE: selection.dfy ===
/** Choice of the next task (stq.py line 112): `min` over the
    `(mtime, name)` pairs of the QUEUE listing, i.e. the oldest modification
    time first, ties broken by the smallest name. */
module Selection {

  /** Python's ordering of strings: lexicographic by code point, a proper
      prefix before its extensions. */
  predicate StrLe(a: string, b: string)
  {
    a == [] || (b != [] && (a[0] < b[0] || (a[0] == b[0] && StrLe(a[1..], b[1..]))))
  }

  lemma {:induction false} StrLeReflexive(a: string)
    ensures StrLe(a, a)
  {
    if a != [] {
      StrLeReflexive(a[1..]);
    }
  }

  lemma {:induction false} StrLeTotal(a: string, b: string)
    ensures StrLe(a, b) || StrLe(b, a)
  {
    if a != [] && b != [] && a[0] == b[0] {
      StrLeTotal(a[1..], b[1..]);
    }
  }

  lemma {:induction false} StrLeTransitive(a: string, b: string, c: string)
    requires StrLe(a, b) && StrLe(b, c)
    ensures StrLe(a, c)
  {
    if a != [] && a[0] == b[0] && b[0] == c[0] {
      StrLeTransitive(a[1..], b[1..], c[1..]);
    }
  }

  lemma {:induction false} StrLeAntisymmetric(a: string, b: string)
    requires StrLe(a, b) && StrLe(b, a)
    ensures a == b
  {
    if a != [] {
      StrLeAntisymmetric(a[1..], b[1..]);
      assert a == [a[0]] + a[1..] && b == [b[0]] + b[1..];
    }
  }

  /** One `(os.path.getmtime(...), f)` pair of the generator. */
  datatype Entry = Entry(mtime: int, name: string)

  /** Tuple ordering `<=` on `(mtime, name)`. */
  predicate KeyLe(p: Entry, q: Entry) {
    p.mtime < q.mtime || (p.mtime == q.mtime && StrLe(p.name, q.name))
  }

  /** Tuple ordering `<`. */
  predicate KeyLt(p: Entry, q: Entry) {
    KeyLe(p, q) && p != q
  }

  lemma KeyLeTotal(p: Entry, q: Entry)
    ensures KeyLe(p, q) || KeyLe(q, p)
  {
    StrLeTotal(p.name, q.name);
  }

  lemma KeyLeTransitive(p: Entry, q: Entry, r: Entry)
    requires KeyLe(p, q) && KeyLe(q, r)
    ensures KeyLe(p, r)
  {
    if p.mtime == q.mtime == r.mtime {
      StrLeTransitive(p.name, q.name, r.name);
    }
  }

  lemma KeyLeAntisymmetric(p: Entry, q: Entry)
    requires KeyLe(p, q) && KeyLe(q, p)
    ensures p == q
  {
    StrLeAntisymmetric(p.name, q.name);
  }

  /** Python's `min`: start from the first item and replace the candidate by
      every later item strictly smaller than it. */
  function MinFrom(best: Entry, rest: seq<Entry>): (m: Entry)
    ensures m == best || m in rest
    ensures KeyLe(m, best) && forall e | e in rest :: KeyLe(m, e)
    decreases |rest|
  {
    if rest == [] then StrLeReflexive(best.name); best
    else
      var next := if KeyLt(rest[0], best) then rest[0] else best;
      var m := MinFrom(next, rest[1..]);
      assert KeyLe(next, best) && KeyLe(next, rest[0]) by {
        StrLeReflexive(best.name);
        StrLeReflexive(rest[0].name);
        KeyLeTotal(rest[0], best);
      }
      assert KeyLe(m, best) && KeyLe(m, rest[0]) by {
        KeyLeTransitive(m, next, best);
        KeyLeTransitive(m, next, rest[0]);
      }
      assert forall e | e in rest :: e == rest[0] || e in rest[1..];
      m
  }

  /** The name of the oldest entry of a non-empty listing. */
  function Oldest(entries: seq<Entry>): (name: string)
    requires entries != []
    ensures exists e | e in entries :: e.name == name && forall f | f in entries :: KeyLe(e, f)
  {
    var m := MinFrom(entries[0], entries[1..]);
    assert forall f | f in entries :: f == entries[0] || f in entries[1..];
    m.name
  }

  /** The oldest entry is the only entry that is `<=` all others, so the
      selection does not depend on the order of the listing. */
  lemma OldestIsUnique(entries: seq<Entry>, e: Entry)
    requires e in entries
    requires forall f | f in entries :: KeyLe(e, f)
    ensures Oldest(entries) == e.name
  {
    var m := MinFrom(entries[0], entries[1..]);
    assert m in entries;
    assert forall f | f in entries :: f == entries[0] || f in entries[1..];
    KeyLeAntisymmetric(e, m);
  }

  lemma SelectionExample()
    ensures Oldest([Entry(5, "b"), Entry(3, "z"), Entry(3, "a")]) == "a"
  {
    var es := [Entry(5, "b"), Entry(3, "z"), Entry(3, "a")];
    assert StrLe("a", "z") && StrLe("a", "b");
    OldestIsUnique(es, Entry(3, "a"));
  }
}

=== FILE: worker.dfy ===
/** The worker's main loop (stq.py lines 97-148): poll QUEUE, print the
    waiting notice once per idle spell, claim the oldest script, run it and
    file its folder by exit status. */
module WorkerLoop {
  import opened FileTree
  import opened TaskStore
  import opened Selection

  /** What one pass of the loop did. */
  datatype Outcome =
    | Idle(notice: bool)                          // QUEUE was empty; `notice`: the message was printed
    | Lost(script: string)                        // another worker took the script first
    | Done(script: string, placement: Placement)  // the task ran and was filed
    | Crashed(script: string, error: Error)       // an exception ended the worker
    | Stopped(error: Error)                       // an exception ended the worker before it picked a script
  {
    /** A script was picked from QUEUE. */
    predicate Picked() {
      Lost? || Done? || Crashed?
    }
  }

  /** `s` is the queued script with the smallest `(mtime, name)` pair. */
  predicate IsOldest(queue: map<string, Script>, s: string) {
    s in queue && forall n | n in queue :: KeyLe(Entry(queue[s].mtime, s), Entry(queue[n].mtime, n))
  }

  class Worker {
    const host: string
    const pid: nat
    /** Set once the waiting notice has been printed, cleared by any
        non-empty poll. */
    var waiting: bool

    constructor (host: string, pid: nat)
      ensures this.host == host && this.pid == pid && !waiting
    {
      this.host := host;
      this.pid := pid;
      waiting := false;
    }

    /** One pass of the `while True` loop.  `rivals` are the steps other
        processes take between this worker's mkdir and its rename;
        `exitStatus` is what the script's process returns. */
    method Iterate(root: QueueRoot, rivals: seq<Rival>, exitStatus: int) returns (out: Outcome)
      requires root.Valid()
      modifies this, root
      ensures root.Valid()
      ensures out.Stopped? <==> QueueDir !in old(root.fs.dirs)
      ensures out.Stopped? ==> out.error == ListFailed && root.fs == old(root.fs) && waiting == old(waiting)
      ensures out.Idle? <==> QueueDir in old(root.fs.dirs) && old(root.fs.queue) == map[]
      ensures !out.Stopped? ==> (waiting <==> out.Idle?)
      ensures out.Idle? ==> out.notice == !old(waiting) && root.fs == old(root.fs)
      ensures out.Picked() ==> IsOldest(old(root.fs.queue), out.script)
      ensures out.Done? ==> (out.placement.stage == Finished <==> exitStatus == 0)
      ensures out.Done? ==>
        && out.placement.name in root.fs.Folders(out.placement.stage)
        && out.script in root.fs.Folders(out.placement.stage)[out.placement.name]
      ensures out.Picked() ==>
        var t := old(root.fs);
        var w := WorkDirName(host, pid, out.script);
        var st := StageFor(exitStatus);
        if !CanMkdir(t, w) then out == Crashed(out.script, MkdirFailed(w)) && root.fs == t
        else
          var mid := AfterRivals(Mkdir(t, w), rivals);
          && CanRmdir(mid, w)
          && if out.script !in mid.queue then out == Lost(out.script) && root.fs == Rmdir(mid, w)
             else
               var claimed := MoveScript(mid, out.script, w);
               if StageDir(st) !in t.dirs then out == Crashed(out.script, FinalizeFailed) && root.fs == claimed
               else
                 && out.Done? && out.placement.stage == st
                 && Probed(t.Folders(st), out.script, out.placement.name)
                 && CanMoveFolder(claimed, w, st, out.placement.name)
                 && root.fs == MoveFolder(claimed, w, st, out.placement.name)
      ensures old(root.where).Keys <= root.where.Keys
    {
      var listed := root.ListQueue();
      if listed.Err? {
        return Stopped(listed.error);
      }
      var files := listed.value;
      if files == [] {
        out := Idle(!waiting);
        waiting := true;
        return;
      }
      waiting := false;
      var q := root.fs.queue;
      var entries := seq(|files|, i requires 0 <= i < |files| => Entry(q[files[i]].mtime, files[i]));
      var script := Oldest(entries);
      assert IsOldest(q, script) by {
        var e :| e in entries && e.name == script && forall f | f in entries :: KeyLe(e, f);
        forall n | n in q
          ensures KeyLe(e, Entry(q[n].mtime, n))
        {
          var j :| 0 <= j < |files| && files[j] == n;
          assert entries[j] == Entry(q[n].mtime, n);
        }
      }
      ghost var t := root.fs;
      var claim := root.Claim(host, pid, script, rivals);
      match claim
      case ClaimFailed(e) =>
        out := Crashed(script, e);
      case LostRace =>
        out := Lost(script);
      case Claimed(w) =>
        ghost var mid := AfterRivals(Mkdir(t, w), rivals);
        assert script in root.fs.running[w];
        assert root.fs.dirs == t.dirs && root.fs.Folders(StageFor(exitStatus)) == t.Folders(StageFor(exitStatus));
        var filed := root.Finalize(w, script, exitStatus);
        if filed.Ok? {
          out := Done(script, filed.value);
        } else {
          out := Crashed(script, filed.error);
        }
    }
  }

  /** The notices printed over a run of polls, from the initial flag;
      `polls[i]` tells whether QUEUE was empty at the i-th poll.  A poll leaves
      the flag equal to its emptiness, as `Iterate` does. */
  function Notices(waiting: bool, polls: seq<bool>): (ns: seq<bool>)
    ensures |ns| == |polls|
    decreases |polls|
  {
    if polls == [] then [] else [polls[0] && !waiting] + Notices(polls[0], polls[1..])
  }

  /** The notice is printed exactly at the first empty poll of every idle
      spell: an empty poll after a non-empty one (or first, when the flag
      started clear). */
  lemma {:induction false} NoticeAtSpellStart(waiting: bool, polls: seq<bool>, i: nat)
    requires i < |polls|
    ensures Notices(waiting, polls)[i] <==> polls[i] && !(if i == 0 then waiting else polls[i - 1])
    decreases i
  {
    if i > 0 {
      NoticeAtSpellStart(polls[0], polls[1..], i - 1);
    }
  }

  /** Between two notices QUEUE was seen non-empty at least once. */
  lemma NoticesSeparated(waiting: bool, polls: seq<bool>, i: nat, j: nat)
    requires i < j < |polls|
    requires Notices(waiting, polls)[i] && Notices(waiting, polls)[j]
    ensures !polls[j - 1] && i < j - 1
  {
    NoticeAtSpellStart(waiting, polls, i);
    NoticeAtSpellStart(waiting, polls, j);
  }
}
